=== FILE: README.md ===
# Mars rover: position transition and command execution

This project models the logic of a grid rover that stands on integer coordinates and faces one of the four
compass headings. It does two things:

- **The positioner's `move`.** It takes a position `{x, y, direction}` and one command and returns the next
  position. `L` and `R` rotate the heading through two fixed tables. `F` and `B` add plus or minus the
  heading's unit delta. An absent or malformed position comes back unchanged, and so does any command other
  than the four letters.
- **The `Rover` class.** It holds one state. `execute` folds `move` over a command string from left to right
  and halts at the first character outside the allow-list `F`, `B`, `L`, `R`. `toString` renders the state as
  `"(x, y) DIRECTION"`.

Layout:

- `options.dfy`: `Option`, standing for a field that may be `undefined`.
- `directions.dfy`: the `Direction` and `MoveCommand` enumerations, their spellings and the rover's allow-list.
- `positioner.dfy`: the raw and the well-formed position, the rotation and delta tables, `rotate`, `translate`
  and `move`.
- `positioner_laws.dfy`: inverse pairs, symmetries and the tables' properties, plus the positioner tests' cases.
- `decimal.dfy`, `rendering.dfy`: decimal rendering of integers, `toString`, and a reader that proves the
  rendering loses nothing.
- `rovers.dfy`: `init`, `execute` as a pure fold and as the source's loop, and the laws of execution.
- `rover_class.dfy`: the `Rover` class with one mutable `state` field.
- `scenarios.dfy`: the command runs of the rover tests, and the texts they expect.
- `prototype_lookup.dfy`: the dispatch as written, with its lookup along the prototype chain (see Findings).

A caller may hand `move` and `setState` anything. The raw state is therefore
`Missing | Record(x: Option<int>, y: Option<int>, direction: Option<string>)`. `Valid` is `move`'s guard: the
record is present, both coordinates are present, and the direction is one of the four names. A valid record
corresponds one-to-one to a clean `Pos(x, y, h)` through `ToRaw` and `FromRaw`. Coordinates are unbounded
integers.

## Model

| member | source | states |
|---|---|---|
| Directions.ParseHeading | src/positioner.js:65-66 | a direction string is accepted as heading `h` exactly when it equals `h`'s upper-case name |
| Directions.NameRoundTrip | src/constants.js:1-6 | reading back the name of any heading gives that heading |
| Directions.ParseCommand | src/positioner.js:71-81 | a command string selects action `c` exactly when it is the one-letter string of `c`; every other string selects none |
| Directions.LetterRoundTrip | src/constants.js:8-13 | reading back the letter of any command gives that command |
| Directions.AllowListMatchesActions | src/rover.js:20-27 | the rover's allow-list admits exactly the letters of the four commands |
| Directions.Opposite | test/positioner.spec.js:127-140 | the opposite heading lies two steps along the clockwise order |
| Directions.IsAllowed | src/rover.js:20-25 | the rover admits a character exactly when the positioner selects an action for its one-letter string |
| Positioner.Valid | src/positioner.js:61-66 | `move`'s guard holds exactly for the records that are the record form `{x, y, direction}` of some position with integer coordinates and one of the four headings |
| Positioner.FromRaw | src/positioner.js:61-69 | every record that passes `move`'s guard is the record form of a clean position |
| Positioner.TurnLeft | src/positioner.js:9-14 | the left table moves each heading one step counter-clockwise in the order NORTH, EAST, SOUTH, WEST |
| Positioner.TurnRight | src/positioner.js:16-21 | the right table moves each heading one step clockwise |
| Positioner.Rotate | src/positioner.js:8-37 | rotation leaves x and y unchanged |
| Positioner.UnitDelta | src/positioner.js:45-50 | every heading's delta is a unit step along exactly one axis |
| Positioner.Translate | src/positioner.js:44-58 | translation keeps the heading and moves exactly one cell |
| Positioner.Apply | src/positioner.js:71-83 | rotations keep the coordinates, and translations keep the heading |
| Positioner.Move | src/positioner.js:60-84 | an absent or malformed position comes back unchanged; so does a valid one under an unsupported command; a valid position stays valid |
| PositionerLaws.MalformedIsFixed | src/positioner.js:61-69 | a position that fails the guard is returned unchanged for every command |
| PositionerLaws.UnknownCommandIsIdentity | src/positioner.js:78-81 | any command other than F, B, L, R returns the input unchanged, whatever the position |
| PositionerLaws.MoveLiftsApply | src/positioner.js:71-83 | on the record of a clean position, a command's letter applies that command's action |
| PositionerLaws.TurnsAreInverse | src/positioner.js:9-21 | the two tables are inverse permutations; each moves every heading, and two turns either way reach the opposite heading |
| PositionerLaws.RotationChangesOnlyDirection | src/positioner.js:33-36 | L and R replace the direction by the table's entry and keep x and y |
| PositionerLaws.RotationRoundTrip | test/positioner.spec.js:80-89 | for every valid position, LR and RL both return the position |
| PositionerLaws.TranslationFollowsDelta | src/positioner.js:44-57 | F adds the heading's delta to (x, y), B subtracts it, and both keep the direction |
| PositionerLaws.TranslationRoundTrip | test/positioner.spec.js:119-126 | for every valid position, FB and BF both return the position |
| PositionerLaws.ForwardMatchesOppositeBackwards | test/positioner.spec.js:127-140 | F on a heading reaches the same cell as B on the opposite heading, for every cell and heading |
| PositionerLaws.DeltaTurnsWithHeading | src/positioner.js:45-50 | the delta table follows from NORTH = (0, 1): turning right turns the delta a quarter clockwise, and the opposite heading negates it |
| PositionerLaws.ExhaustiveRotationPairs | test/positioner.spec.js:53-78 | the eight rotations the tests list |
| PositionerLaws.SampleMovesNorth | test/positioner.spec.js:144-163 | the sample moves facing NORTH |
| PositionerLaws.SampleMovesEast | test/positioner.spec.js:164-189 | the sample moves facing EAST |
| PositionerLaws.SampleMovesSouth | test/positioner.spec.js:190-215 | the sample moves facing SOUTH, which the tests list but do not run |
| PositionerLaws.SampleMovesWest | test/positioner.spec.js:216-241 | the sample moves facing WEST, which the tests list but do not run |
| PositionerLaws.EdgeCases | test/positioner.spec.js:6-33 | a missing direction, a missing y, "LEAP_FORWARD" and the empty command leave the position unchanged |
| Decimal.NatToString | src/rover.js:37 | a natural number renders as a non-empty run of digits with no leading zero |
| Decimal.IntToString | src/rover.js:37 | an integer renders as its canonical decimal: digits after an optional minus sign, the minus sign exactly when it is negative, and no leading zero |
| Decimal.NatRoundTrip | src/rover.js:37 | the digits of a natural number read back as that number |
| Decimal.IntRoundTrip | src/rover.js:37 | an integer's rendering reads back as that integer |
| Rendering.Render | src/rover.js:35-38 | an absent state cannot be rendered and any present record can; a record with all three fields renders as "(x, y) direction" with the integers in canonical decimal and the direction text as stored, valid or not; a valid state renders as "(x, y) NAME" |
| Rendering.RenderRoundTrip | src/rover.js:35-38 | the text of a clean position reads back as that position, so distinct positions render differently |
| Rovers.InitState | src/rover.js:7-9 | `init` stores the record `{x, y, direction}` exactly as given, unchecked; it is valid exactly when the direction is a heading name, and then it denotes (x, y, that heading) |
| Rovers.AllowedPrefix | src/rover.js:26-29 | the longest prefix made only of allowed characters: a prefix, all allowed, and followed by a disallowed character or by nothing |
| Rovers.Execute | src/rover.js:19-33 | execution leaves a malformed state unchanged and keeps a valid state valid |
| Rovers.ExecuteLoop | src/rover.js:26-32 | the source's loop, with its break at the first disallowed character, computes the same state as the fold |
| Rovers.ExecuteIsPrefixFold | src/rover.js:26-32 | executing a string equals applying `move` to each character of its longest allowed prefix in turn |
| Rovers.ExecuteNoOp | src/rover.js:26-29 | an empty string, or one whose first character is disallowed, leaves the state unchanged |
| Rovers.ExecuteStopsAtBad | src/rover.js:27-29 | after the first disallowed character, nothing is applied, whatever follows it |
| Rovers.ExecuteConcat | src/rover.js:26-32 | when the first string is all allowed characters, executing it and then a second string equals executing their concatenation |
| RoverClass.Rover.Init | src/rover.js:7-9 | `init` replaces the state with the given values, which default to 0, 0 and "NORTH" |
| RoverClass.Rover.SetState | src/rover.js:11-13 | `setState` replaces the whole state with no check |
| RoverClass.Rover.Execute | src/rover.js:19-33 | `execute` replaces the state by the fold over the command string |
| RoverClass.Rover.constructor | src/rover.js:5 | a fresh rover holds `Rovers.DefaultState`, the record of (0, 0) facing NORTH |
| RoverClass.Rover.GetState | src/rover.js:15-17 | `getState` hands back the stored state itself, so after `setState(s)` it returns `s` |
| RoverClass.Rover.ToString | src/rover.js:35-38 | `toString` fails on an absent state, renders a record with all three fields as "(x, y) direction" with the direction text as stored, and a valid state as "(x, y) NAME" |
| Scenarios.InitialStates | src/rover.js:5-9 | a fresh rover's state is `init(0, 0, "NORTH")`, and `init` with a heading's name gives the clean position |
| Scenarios.SingleCommands | test/rover.spec.js:13-25 | "F" facing WEST moves one cell west, and "X" changes nothing, from every cell |
| Scenarios.CommandList | test/rover.spec.js:27-32 | "FLFFFRFLB" facing WEST ends two cells west and two south, facing SOUTH, from every cell |
| Scenarios.CommandListEnd | test/rover.spec.js:27-32 | proof step of `Scenarios.CommandList`, not a test of its own: the last four commands "RFLB" facing SOUTH move one cell west and one north and end facing SOUTH |
| Scenarios.StopsAtFirstBadCommand | test/rover.spec.js:34-39 | "FFXFF" facing EAST ends two cells east; the two F after X are never applied |
| Scenarios.ReturnsToOrigin | test/rover.spec.js:41-46 | "FFFBBBRFFBBLBBFF" facing EAST returns to the starting cell, facing EAST |
| Scenarios.ReturnsAfterTurn | test/rover.spec.js:41-46 | proof step of `Scenarios.ReturnsToOrigin`, not a test of its own: the second half "RFFBBLBBFF" facing EAST returns to its cell facing EAST |
| Scenarios.ReturnsFacingSouth | test/rover.spec.js:41-46 | proof step of `Scenarios.ReturnsAfterTurn`, not a test of its own: "BBLBBFF" facing SOUTH two cells down returns to the cell where the turn began, facing EAST |
| Scenarios.ReturnsAlongEast | test/rover.spec.js:41-46 | proof step of `Scenarios.ReturnsFacingSouth`, not a test of its own: "BBFF" facing EAST returns to its cell |
| Scenarios.GridWalkOut | test/rover.spec.js:64-68 | "FFFRFFF" facing EAST ends three cells east and three south, facing SOUTH |
| Scenarios.GridWalkDown | test/rover.spec.js:64-68 | proof step of `Scenarios.GridWalkOut`, not a test of its own: "FFF" facing SOUTH moves three cells south |
| Scenarios.GridWalkBack | test/rover.spec.js:69-70 | "LLFFFLFFF" from there returns to the starting cell, facing WEST |
| Scenarios.GridWalkHome | test/rover.spec.js:69-70 | proof step of `Scenarios.GridWalkBack`, not a test of its own: "LFFF" facing NORTH three cells east of the start ends at the start, facing WEST |
| Scenarios.TextsWithNegatives | test/rover.spec.js:17-31 | the texts "(-2, -2) SOUTH" and "(-1, 0) WEST" |
| Scenarios.TextAtGridCorner | test/rover.spec.js:68 | the text "(3, -3) SOUTH" |
| Scenarios.TextsWithoutNegatives | test/rover.spec.js:10-70 | the texts "(6, 4) NORTH", "(0, 0) WEST", "(2, 0) EAST" and "(0, 0) EAST" |
| Scenarios.TextOfUncheckedDirection | src/rover.js:7-38 | `init(6, 4, "north")` stores the unknown direction and `toString` renders it as "(6, 4) north" |
| PrototypeLookup.MoveAsWritten | src/positioner.js:71-83 | with the lookup as written, a command that is not an inherited key behaves as in `Move`, and a malformed position is still returned unchanged |
| PrototypeLookup.CallInherited | src/positioner.js:78-83 | an inherited member called as `action(position)`: `constructor` returns the position, `toString` returns "[object Undefined]", every other key throws |
| PrototypeLookup.InheritedKeyBreaksIdentity | src/positioner.js:78-83 | as written, the unsupported command "toString" yields the text "[object Undefined]" instead of the position, and "valueOf" throws, where the corrected `Move` returns the position for both |
| PrototypeLookup.AllowedCharsAreOwnKeys | src/rover.js:20-31 | no allowed character is an inherited key, so `execute` never reaches the difference |

The scenario lemmas state each test run from every starting cell `(x, y)`. The tests use the instance
`x = y = 0`.

## Left out

- `server.js` is not part of this model. It covers the HTTP server, body reading, JSON parsing and routing. It
  uses the core only through `setState`, `execute` and `toString`.
- `Number.parseInt` leniency is not modelled. The source accepts `"3abc"`, and floats such as 2.5. Coordinates
  are `Option<int>`.
- Coordinates of other types are not modelled. In JavaScript, `x + delta.dx` concatenates when `x` is a
  numeric string.
- Command values other than strings are not modelled: `undefined`, `null` and the number `0`. The empty
  string stands in for the "no command" case.
- Extra fields on a position are not modelled. `rotate` copies extra fields and `translate` drops them; the
  records here have exactly the three fields.
- The numeric rotation keys (-90, 90) are replaced by a two-constructor `Rotation` datatype. `rotate`'s
  fallback for an unknown rotation is unreachable from `move`, so it has no counterpart.
- Coordinates are unbounded integers. JavaScript numbers lose precision beyond 2^53, and `toString` switches
  to exponent notation from 1e21.
- `toString` for a present record renders a missing field as "undefined". Field values of any other type do
  not exist in this model.
- `getState` returns the stored value. Aliasing of the returned object does not exist with value types.
- Iteration: JavaScript's `for ... of` iterates a string by code points, and a Dafny `char` is a Unicode
  scalar value. Lone surrogates are not modelled.
- Rovers.Execute: its contract states only validity preservation and the identity on malformed states. The
  full behaviour (prefix fold, halting, concatenation) is stated by the lemmas `ExecuteIsPrefixFold`,
  `ExecuteStopsAtBad` and `ExecuteConcat`.

## Findings

| source | as written | input that shows it | evidently intended | confidence | as-written member | corrected member |
|---|---|---|---|---|---|---|
| src/positioner.js:78-83 | the action is looked up with `commandToAction[command]` on a plain object, so the keys every object inherits are found too, and the inherited member is called with the position | `move({x: 0, y: 0, direction: "NORTH"}, "toString")` returns "[object Undefined]"; with "valueOf" the call throws | an unsupported command string returns the position unchanged, as the tests promise for "LEAP_FORWARD" | medium, not executed | PrototypeLookup.InheritedKeyBreaksIdentity | PositionerLaws.UnknownCommandIsIdentity |

The rest of the model uses the corrected lookup, which sees only the four own keys (`Positioner.Move`). The
rover's `execute` only passes allowed one-letter strings, so it is unaffected (`PrototypeLookup.AllowedCharsAreOwnKeys`).

=== FILE: decimal.dfy ===
/** Decimal notation of integers, as a template literal renders a JavaScript integer. */
module Decimal {
  import opened Options

  predicate IsDigit(ch: char) {
    '0' <= ch <= '9'
  }

  predicate AllDigits(s: string) {
    forall i :: 0 <= i < |s| ==> IsDigit(s[i])
  }

  function DigitChar(d: nat): (ch: char)
    requires d < 10
    ensures IsDigit(ch)
  {
    (48 + d) as char
  }

  function DigitValue(ch: char): (d: nat)
    requires IsDigit(ch)
    ensures d < 10 && DigitChar(d) == ch
  {
    (ch as int - 48) as nat
  }

  /** Digits of a natural number, most significant first, without leading zeros. */
  function NatToString(n: nat): (s: string)
    ensures |s| >= 1 && AllDigits(s)
    ensures |s| > 1 ==> s[0] != '0'
    decreases n
  {
    if n < 10 then [DigitChar(n)] else NatToString(n / 10) + [DigitChar(n % 10)]
  }

  /** The value a string of decimal digits denotes. */
  function DigitsValue(s: string): nat
    requires AllDigits(s)
  {
    if |s| == 0 then 0 else DigitsValue(s[..|s| - 1]) * 10 + DigitValue(s[|s| - 1])
  }

  /** Integer rendering: a minus sign before the digits of the magnitude when negative. */
  function IntToString(i: int): (s: string)
    ensures |s| >= 1
    ensures forall k :: 0 <= k < |s| ==> IsDigit(s[k]) || (k == 0 && s[k] == '-')
    ensures s[0] == '-' <==> i < 0
    ensures s[0] != '-' && |s| > 1 ==> s[0] != '0'
    ensures s[0] == '-' ==> |s| >= 2 && s[1] != '0'
  {
    if i < 0 then "-" + NatToString(-i) else NatToString(i)
  }

  /** Reads back an optional minus sign followed by at least one digit. */
  function ParseInt(s: string): Option<int> {
    if |s| >= 2 && s[0] == '-' && AllDigits(s[1..]) then Some(0 - DigitsValue(s[1..]) as int)
    else if |s| >= 1 && AllDigits(s) then Some(DigitsValue(s))
    else None
  }

  /** Reading the digits of a natural number gives the number back. */
  lemma {:induction false} NatRoundTrip(n: nat)
    ensures DigitsValue(NatToString(n)) == n
    decreases n
  {
    var s := NatToString(n);
    if n >= 10 {
      NatRoundTrip(n / 10);
      assert s[..|s| - 1] == NatToString(n / 10);
    }
  }

  /** Reading the rendering of an integer gives the integer back; so the rendering is injective. */
  lemma IntRoundTrip(i: int)
    ensures ParseInt(IntToString(i)) == Some(i)
  {
    var s := IntToString(i);
    if i < 0 {
      NatRoundTrip(-i);
      assert s[1..] == NatToString(-i);
    } else {
      NatRoundTrip(i);
    }
  }
}

=== FILE: directions.dfy ===
/** The two enumerations of the rover: compass headings and move commands. */
module Directions {
  import opened Options

  /** The four compass headings a position can carry. */
  datatype Heading = North | East | South | West

  /** The upper-case name stored in a position's `direction` field. */
  function Name(h: Heading): string {
    match h
    case North => "NORTH"
    case East => "EAST"
    case South => "SOUTH"
    case West => "WEST"
  }

  /** The heading a direction string denotes, if it is one of the four names exactly. */
  function ParseHeading(s: string): (r: Option<Heading>)
    ensures forall h :: r == Some(h) <==> s == Name(h)
  {
    if s == "NORTH" then Some(North)
    else if s == "EAST" then Some(East)
    else if s == "SOUTH" then Some(South)
    else if s == "WEST" then Some(West)
    else None
  }

  /** Position of a heading in the clockwise order NORTH, EAST, SOUTH, WEST. */
  function Index(h: Heading): (i: nat)
    ensures i < 4
  {
    match h
    case North => 0
    case East => 1
    case South => 2
    case West => 3
  }

  /** The heading pointing the other way. */
  function Opposite(h: Heading): (r: Heading)
    ensures Index(r) == (Index(h) + 2) % 4
  {
    match h
    case North => South
    case East => West
    case South => North
    case West => East
  }

  /** The four move commands: forward, backwards, rotate left and rotate right by 90 degrees. */
  datatype Command = Forward | Backwards | Left | Right

  /** The one-letter spelling of a command. */
  function Letter(c: Command): char {
    match c
    case Forward => 'F'
    case Backwards => 'B'
    case Left => 'L'
    case Right => 'R'
  }

  /** The command a command string names; anything but one of the four one-letter strings names none. */
  function ParseCommand(s: string): (r: Option<Command>)
    ensures forall c :: r == Some(c) <==> s == [Letter(c)]
  {
    if |s| != 1 then None
    else if s[0] == 'F' then Some(Forward)
    else if s[0] == 'B' then Some(Backwards)
    else if s[0] == 'L' then Some(Left)
    else if s[0] == 'R' then Some(Right)
    else None
  }

  /** The allow-list the rover consults before handing a character to the positioner. */
  predicate IsAllowed(ch: char)
    ensures IsAllowed(ch) <==> ParseCommand([ch]).Some?
  {
    ch == 'B' || ch == 'F' || ch == 'L' || ch == 'R'
  }

  /** The rover's allow-list admits exactly the characters the positioner has an action for. */
  lemma AllowListMatchesActions(ch: char)
    ensures IsAllowed(ch) <==> exists c :: Letter(c) == ch
  {
    if IsAllowed(ch) {
      var c := if ch == 'F' then Forward else if ch == 'B' then Backwards else if ch == 'L' then Left else Right;
      assert Letter(c) == ch;
    }
  }

  /** Reading back a heading's name gives the heading. */
  lemma NameRoundTrip(h: Heading)
    ensures ParseHeading(Name(h)) == Some(h)
  {
  }

  /** Reading back a command's letter gives the command. */
  lemma LetterRoundTrip(c: Command)
    ensures ParseCommand([Letter(c)]) == Some(c)
  {
  }
}

=== FILE: options.dfy ===
/** A value that may be absent: models a field or a lookup that JavaScript reports as `undefined`. */
module Options {

  datatype Option<+T> = None | Some(value: T)

}

=== FILE: positioner.dfy ===
/**
 The position transition function: given a position and one command, the next position.
 Malformed positions and unknown commands map to themselves; every input has a result.
 */
module Positioner {
  import opened Options
  import opened Directions

  /**
   A position as a caller may hand it over: possibly absent altogether, and with any of its
   three fields possibly missing. The direction is free text until it is validated.
   */
  datatype RawPos = Missing | Record(x: Option<int>, y: Option<int>, direction: Option<string>)

  /** A well-formed position: integer coordinates and one of the four headings. */
  datatype Pos = Pos(x: int, y: int, h: Heading)

  /** The guard of the transition function: the position is present, both coordinates are
      integers and the direction names one of the four headings; that is, it is the record
      form of a well-formed position. */
  predicate Valid(p: RawPos)
    ensures Valid(p) <==> exists q: Pos :: p == Record(Some(q.x), Some(q.y), Some(Name(q.h)))
  {
    if p.Record? && p.x.Some? && p.y.Some? && p.direction.Some?
       && ParseHeading(p.direction.value).Some?
    then
      var q := Pos(p.x.value, p.y.value, ParseHeading(p.direction.value).value);
      assert p == Record(Some(q.x), Some(q.y), Some(Name(q.h)));
      true
    else false
  }

  /** The record form of a well-formed position. */
  function ToRaw(p: Pos): (r: RawPos)
    ensures Valid(r)
  {
    Record(Some(p.x), Some(p.y), Some(Name(p.h)))
  }

  /** The well-formed position a valid record denotes; its record form is the record itself. */
  function FromRaw(p: RawPos): (q: Pos)
    requires Valid(p)
    ensures ToRaw(q) == p
  {
    Pos(p.x.value, p.y.value, ParseHeading(p.direction.value).value)
  }

  /** The left-rotation table: NORTH to WEST to SOUTH to EAST to NORTH. */
  function TurnLeft(h: Heading): (r: Heading)
    ensures Index(r) == (Index(h) + 3) % 4
  {
    match h
    case North => West
    case West => South
    case South => East
    case East => North
  }

  /** The right-rotation table: NORTH to EAST to SOUTH to WEST to NORTH. */
  function TurnRight(h: Heading): (r: Heading)
    ensures Index(r) == (Index(h) + 1) % 4
  {
    match h
    case North => East
    case East => South
    case South => West
    case West => North
  }

  /** The two rotations the positioner knows: 90 degrees left and 90 degrees right. */
  datatype Rotation = Left90Degrees | Right90Degrees

  /** Rotation relabels the heading and leaves the coordinates where they are. */
  function Rotate(p: Pos, rotation: Rotation): (r: Pos)
    ensures r.x == p.x && r.y == p.y
  {
    match rotation
    case Left90Degrees => Pos(p.x, p.y, TurnLeft(p.h))
    case Right90Degrees => Pos(p.x, p.y, TurnRight(p.h))
  }

  /** A unit displacement on the grid. */
  datatype Delta = Delta(dx: int, dy: int)

  function Abs(n: int): nat {
    if n < 0 then -n else n
  }

  /** The displacement of one step forward on a heading: NORTH (0, 1), EAST (1, 0),
      SOUTH (0, -1), WEST (-1, 0). */
  function UnitDelta(h: Heading): (d: Delta)
    ensures Abs(d.dx) + Abs(d.dy) == 1
  {
    match h
    case North => Delta(0, 1)
    case East => Delta(1, 0)
    case South => Delta(0, -1)
    case West => Delta(-1, 0)
  }

  /** The sign of a translation: forward is positive, backwards negative. */
  datatype TranslationStep = Positive | Negative

  function StepValue(s: TranslationStep): int {
    match s
    case Positive => 1
    case Negative => -1
  }

  /** Translation moves one cell along the heading (or against it) and keeps the heading. */
  function Translate(p: Pos, step: TranslationStep): (r: Pos)
    ensures r.h == p.h
    ensures Abs(r.x - p.x) + Abs(r.y - p.y) == 1
  {
    var delta := UnitDelta(p.h);
    Pos(p.x + delta.dx * StepValue(step), p.y + delta.dy * StepValue(step), p.h)
  }

  /** The action each command dispatches to. */
  function Apply(p: Pos, c: Command): (r: Pos)
    ensures c.Left? || c.Right? ==> r.x == p.x && r.y == p.y
    ensures c.Forward? || c.Backwards? ==> r.h == p.h
  {
    match c
    case Left => Rotate(p, Left90Degrees)
    case Right => Rotate(p, Right90Degrees)
    case Forward => Translate(p, Positive)
    case Backwards => Translate(p, Negative)
  }

  /**
   The transition function. An absent or malformed position, or a command that is not
   one of the four letters, yields the input position unchanged; otherwise the command's
   action is applied, and the result is again a valid position.
   */
  function Move(prev: RawPos, command: string): (r: RawPos)
    ensures !Valid(prev) ==> r == prev
    ensures ParseCommand(command).None? ==> r == prev
    ensures Valid(prev) ==> Valid(r)
  {
    if !Valid(prev) then prev
    else
      match ParseCommand(command)
      case None => prev
      case Some(c) => ToRaw(Apply(FromRaw(prev), c))
  }
}

=== FILE: positioner_laws.dfy ===
/** Laws of the transition function, as the positioner's tests state them. */
module PositionerLaws {
  import opened Options
  import opened Directions
  import opened Positioner

  /** A malformed or absent position is returned unchanged whatever the command. */
  lemma MalformedIsFixed(p: RawPos, command: string)
    requires !Valid(p)
    ensures Move(p, command) == p
  {
  }

  /** A command other than the four letters leaves a position unchanged. */
  lemma UnknownCommandIsIdentity(p: RawPos, command: string)
    requires command != "F" && command != "B" && command != "L" && command != "R"
    ensures Move(p, command) == p
  {
  }

  /** On a valid position, a letter command applies the action it names. */
  lemma MoveLiftsApply(p: Pos, c: Command)
    ensures Move(ToRaw(p), [Letter(c)]) == ToRaw(Apply(p, c))
  {
    LetterRoundTrip(c);
    assert FromRaw(ToRaw(p)) == p;
  }

  /** The two rotation tables are inverse permutations, and each is a quarter of a full turn. */
  lemma TurnsAreInverse(h: Heading)
    ensures TurnRight(TurnLeft(h)) == h && TurnLeft(TurnRight(h)) == h
    ensures TurnLeft(h) != h && TurnRight(h) != h
    ensures TurnRight(TurnRight(h)) == Opposite(h) && TurnLeft(TurnLeft(h)) == Opposite(h)
  {
  }

  /** L and R change only the direction, following the two rotation tables. */
  lemma RotationChangesOnlyDirection(x: int, y: int, h: Heading)
    ensures Move(ToRaw(Pos(x, y, h)), "L") == ToRaw(Pos(x, y, TurnLeft(h)))
    ensures Move(ToRaw(Pos(x, y, h)), "R") == ToRaw(Pos(x, y, TurnRight(h)))
  {
    MoveLiftsApply(Pos(x, y, h), Left);
    MoveLiftsApply(Pos(x, y, h), Right);
  }

  /** For every valid position, LR and RL bring the rover back to where it was. */
  lemma RotationRoundTrip(p: RawPos)
    requires Valid(p)
    ensures Move(Move(p, "L"), "R") == p
    ensures Move(Move(p, "R"), "L") == p
  {
    var q := FromRaw(p);
    MoveLiftsApply(q, Left);
    MoveLiftsApply(Apply(q, Left), Right);
    MoveLiftsApply(q, Right);
    MoveLiftsApply(Apply(q, Right), Left);
    TurnsAreInverse(q.h);
  }

  /** F and B add plus or minus the heading's unit delta and keep the direction. */
  lemma TranslationFollowsDelta(x: int, y: int, h: Heading)
    ensures Move(ToRaw(Pos(x, y, h)), "F") == ToRaw(Pos(x + UnitDelta(h).dx, y + UnitDelta(h).dy, h))
    ensures Move(ToRaw(Pos(x, y, h)), "B") == ToRaw(Pos(x - UnitDelta(h).dx, y - UnitDelta(h).dy, h))
  {
    MoveLiftsApply(Pos(x, y, h), Forward);
    MoveLiftsApply(Pos(x, y, h), Backwards);
  }

  /** For every valid position, FB and BF bring the rover back to where it was. */
  lemma TranslationRoundTrip(p: RawPos)
    requires Valid(p)
    ensures Move(Move(p, "F"), "B") == p
    ensures Move(Move(p, "B"), "F") == p
  {
    var q := FromRaw(p);
    MoveLiftsApply(q, Forward);
    MoveLiftsApply(Apply(q, Forward), Backwards);
    MoveLiftsApply(q, Backwards);
    MoveLiftsApply(Apply(q, Backwards), Forward);
  }

  /** Forward on a heading reaches the same cell as backwards on the opposite heading. */
  lemma ForwardMatchesOppositeBackwards(x: int, y: int, h: Heading)
    ensures var f := Move(ToRaw(Pos(x, y, h)), "F");
            var b := Move(ToRaw(Pos(x, y, Opposite(h))), "B");
            f.x == b.x && f.y == b.y
  {
    TranslationFollowsDelta(x, y, h);
    TranslationFollowsDelta(x, y, Opposite(h));
  }

  /** The delta table is determined by the rotation table: NORTH steps to (0, 1), and turning
      right turns the step a quarter clockwise, (dx, dy) to (dy, -dx). */
  lemma DeltaTurnsWithHeading(h: Heading)
    ensures UnitDelta(North) == Delta(0, 1)
    ensures UnitDelta(TurnRight(h)) == Delta(UnitDelta(h).dy, -UnitDelta(h).dx)
    ensures UnitDelta(Opposite(h)) == Delta(-UnitDelta(h).dx, -UnitDelta(h).dy)
  {
  }

  /** The eight rotations the tests enumerate. */
  lemma ExhaustiveRotationPairs()
    ensures Move(ToRaw(Pos(0, 0, North)), "R") == ToRaw(Pos(0, 0, East))
    ensures Move(ToRaw(Pos(0, 0, East)), "R") == ToRaw(Pos(0, 0, South))
    ensures Move(ToRaw(Pos(0, 0, South)), "R") == ToRaw(Pos(0, 0, West))
    ensures Move(ToRaw(Pos(0, 0, West)), "R") == ToRaw(Pos(0, 0, North))
    ensures Move(ToRaw(Pos(0, 0, North)), "L") == ToRaw(Pos(0, 0, West))
    ensures Move(ToRaw(Pos(0, 0, East)), "L") == ToRaw(Pos(0, 0, North))
    ensures Move(ToRaw(Pos(0, 0, South)), "L") == ToRaw(Pos(0, 0, East))
    ensures Move(ToRaw(Pos(0, 0, West)), "L") == ToRaw(Pos(0, 0, South))
  {
    RotationChangesOnlyDirection(0, 0, North);
    RotationChangesOnlyDirection(0, 0, East);
    RotationChangesOnlyDirection(0, 0, South);
    RotationChangesOnlyDirection(0, 0, West);
  }

  /** The sample moves facing NORTH. */
  lemma SampleMovesNorth()
    ensures Move(ToRaw(Pos(-1, -1, North)), "F") == ToRaw(Pos(-1, 0, North))
    ensures Move(ToRaw(Pos(0, 0, North)), "F") == ToRaw(Pos(0, 1, North))
    ensures Move(ToRaw(Pos(0, 0, North)), "B") == ToRaw(Pos(0, -1, North))
  {
    TranslationFollowsDelta(-1, -1, North);
    TranslationFollowsDelta(0, 0, North);
  }

  /** The sample moves facing EAST. */
  lemma SampleMovesEast()
    ensures Move(ToRaw(Pos(0, 0, East)), "F") == ToRaw(Pos(1, 0, East))
    ensures Move(ToRaw(Pos(0, 0, East)), "B") == ToRaw(Pos(-1, 0, East))
    ensures Move(ToRaw(Pos(-2, -3, East)), "F") == ToRaw(Pos(-1, -3, East))
    ensures Move(ToRaw(Pos(2, 3, East)), "B") == ToRaw(Pos(1, 3, East))
  {
    TranslationFollowsDelta(0, 0, East);
    TranslationFollowsDelta(-2, -3, East);
    TranslationFollowsDelta(2, 3, East);
  }

  /** The sample moves facing SOUTH. */
  lemma SampleMovesSouth()
    ensures Move(ToRaw(Pos(0, 0, South)), "F") == ToRaw(Pos(0, -1, South))
    ensures Move(ToRaw(Pos(0, 0, South)), "B") == ToRaw(Pos(0, 1, South))
    ensures Move(ToRaw(Pos(-2, -3, South)), "F") == ToRaw(Pos(-2, -4, South))
    ensures Move(ToRaw(Pos(2, 3, South)), "B") == ToRaw(Pos(2, 4, South))
  {
    TranslationFollowsDelta(0, 0, South);
    TranslationFollowsDelta(-2, -3, South);
    TranslationFollowsDelta(2, 3, South);
  }

  /** The sample moves facing WEST. */
  lemma SampleMovesWest()
    ensures Move(ToRaw(Pos(0, 0, West)), "F") == ToRaw(Pos(-1, 0, West))
    ensures Move(ToRaw(Pos(0, 0, West)), "B") == ToRaw(Pos(1, 0, West))
    ensures Move(ToRaw(Pos(-2, -3, West)), "F") == ToRaw(Pos(-3, -3, West))
    ensures Move(ToRaw(Pos(2, 3, West)), "B") == ToRaw(Pos(3, 3, West))
  {
    TranslationFollowsDelta(0, 0, West);
    TranslationFollowsDelta(-2, -3, West);
    TranslationFollowsDelta(2, 3, West);
  }

  /** The malformed inputs and unsupported commands of the tests. */
  lemma EdgeCases()
    ensures Move(Record(Some(0), Some(0), None), "B") == Record(Some(0), Some(0), None)
    ensures Move(Record(Some(0), None, Some("WEST")), "B") == Record(Some(0), None, Some("WEST"))
    ensures Move(ToRaw(Pos(0, 0, North)), "LEAP_FORWARD") == ToRaw(Pos(0, 0, North))
    ensures Move(ToRaw(Pos(0, 0, North)), "") == ToRaw(Pos(0, 0, North))
  {
    UnknownCommandIsIdentity(ToRaw(Pos(0, 0, North)), "LEAP_FORWARD");
    UnknownCommandIsIdentity(ToRaw(Pos(0, 0, North)), "");
  }
}

=== FILE: prototype_lookup.dfy ===
/**
 The transition function as its dispatch is written: the action table is a plain object,
 so looking a command up also finds the keys every object inherits. Those inherited
 members are then called with no receiver and the position as argument.
 */
module PrototypeLookup {
  import opened Directions
  import opened Positioner
  import PositionerLaws

  /** What a call can end in: a value of the position's shape, some other value, or an exception. */
  datatype Outcome = Returns(pos: RawPos) | ReturnsText(text: string) | Throws

  /** The keys a plain object inherits. */
  predicate IsInheritedKey(command: string) {
    command in {"constructor", "hasOwnProperty", "isPrototypeOf", "propertyIsEnumerable",
                "toLocaleString", "toString", "valueOf", "__proto__", "__defineGetter__",
                "__defineSetter__", "__lookupGetter__", "__lookupSetter__"}
  }

  /**
   The inherited member a command names, called as `action(position)` with no receiver:
   `constructor` hands its object argument back, `toString` describes the missing receiver,
   and every other member needs a receiver (or, for `__proto__`, is not callable) and throws.
   */
  function CallInherited(command: string, p: RawPos): (r: Outcome)
    requires IsInheritedKey(command)
    ensures r.Returns? <==> command == "constructor"
    ensures r.Returns? ==> r.pos == p
    ensures r.ReturnsText? <==> command == "toString"
    ensures r.ReturnsText? ==> r.text == "[object Undefined]"
  {
    if command == "constructor" then Returns(p)
    else if command == "toString" then ReturnsText("[object Undefined]")
    else Throws
  }

  /** The transition function with the action looked up along the prototype chain. */
  function MoveAsWritten(prev: RawPos, command: string): (r: Outcome)
    ensures !IsInheritedKey(command) ==> r == Returns(Move(prev, command))
    ensures !Valid(prev) ==> r == Returns(prev)
  {
    if !Valid(prev) then Returns(prev)
    else if ParseCommand(command).Some? then Returns(Move(prev, command))
    else if IsInheritedKey(command) then CallInherited(command, prev)
    else Returns(prev)
  }

  /** The unsupported command "toString" does not give the position back; "valueOf" throws. */
  lemma InheritedKeyBreaksIdentity()
    ensures MoveAsWritten(ToRaw(Pos(0, 0, North)), "toString") == ReturnsText("[object Undefined]")
    ensures MoveAsWritten(ToRaw(Pos(0, 0, North)), "valueOf") == Throws
    ensures Move(ToRaw(Pos(0, 0, North)), "toString") == ToRaw(Pos(0, 0, North))
    ensures Move(ToRaw(Pos(0, 0, North)), "valueOf") == ToRaw(Pos(0, 0, North))
  {
    PositionerLaws.UnknownCommandIsIdentity(ToRaw(Pos(0, 0, North)), "toString");
    PositionerLaws.UnknownCommandIsIdentity(ToRaw(Pos(0, 0, North)), "valueOf");
  }

  /** Execution never meets the difference: the allow-list only admits one-letter commands,
      and no inherited key is one letter long. */
  lemma AllowedCharsAreOwnKeys(prev: RawPos, ch: char)
    requires IsAllowed(ch)
    ensures !IsInheritedKey([ch])
    ensures MoveAsWritten(prev, [ch]) == Returns(Move(prev, [ch]))
  {
  }
}

=== FILE: rendering.dfy ===
/** The rover's text form, "(x, y) DIRECTION", and a reader for it. */
module Rendering {
  import opened Options
  import opened Directions
  import opened Positioner
  import opened Decimal

  /** A template literal renders a missing field as "undefined". */
  function ShowInt(o: Option<int>): string {
    match o
    case None => "undefined"
    case Some(i) => IntToString(i)
  }

  function ShowText(o: Option<string>): string {
    match o
    case None => "undefined"
    case Some(s) => s
  }

  /** The text of a well-formed position. */
  function RenderPos(p: Pos): string {
    "(" + IntToString(p.x) + ", " + IntToString(p.y) + ") " + Name(p.h)
  }

  /**
   The text of whatever state the rover holds. Destructuring an absent state throws,
   which is the `None` result; a present record always renders, valid or not.
   */
  function Render(state: RawPos): (r: Option<string>)
    ensures r.None? <==> state.Missing?
    ensures Valid(state) ==> r == Some(RenderPos(FromRaw(state)))
    ensures state.Record? && state.x.Some? && state.y.Some? && state.direction.Some? ==>
              r == Some("(" + IntToString(state.x.value) + ", " + IntToString(state.y.value) + ") "
                        + state.direction.value)
  {
    match state
    case Missing => None
    case Record(x, y, direction) =>
      Some("(" + ShowInt(x) + ", " + ShowInt(y) + ") " + ShowText(direction))
  }

  /** The first index of a character in a string, if it occurs. */
  function IndexOf(s: string, ch: char): (r: Option<nat>)
    ensures r.Some? ==> r.value < |s| && s[r.value] == ch && ch !in s[..r.value]
    ensures r.None? ==> ch !in s
  {
    if |s| == 0 then None
    else if s[0] == ch then Some(0)
    else
      match IndexOf(s[1..], ch)
      case None => None
      case Some(k) => assert s[..k + 1] == [s[0]] + s[1..][..k]; Some(k + 1)
  }

  /** Where a character first occurs right after a stretch that lacks it. */
  lemma {:induction false} IndexAfter(a: string, b: string, ch: char)
    requires ch !in a && |b| > 0 && b[0] == ch
    ensures IndexOf(a + b, ch) == Some(|a|)
    decreases |a|
  {
    if |a| > 0 {
      assert (a + b)[1..] == a[1..] + b;
      IndexAfter(a[1..], b, ch);
    }
  }

  /** Splits a string around the first occurrence of a character. */
  function SplitAt(s: string, ch: char): Option<(string, string)> {
    match IndexOf(s, ch)
    case None => None
    case Some(k) => Some((s[..k], s[k + 1..]))
  }

  /** A string is split at a separator that its first part lacks. */
  lemma SplitAtFirst(a: string, b: string, ch: char)
    requires ch !in a
    ensures SplitAt(a + [ch] + b, ch) == Some((a, b))
  {
    var s := a + [ch] + b;
    IndexAfter(a, [ch] + b, ch);
    assert s == a + ([ch] + b);
    assert s[..|a|] == a;
    assert s[|a| + 1..] == b;
  }

  /** Reads "(x, y) DIRECTION" back into a position, if the text has that form. */
  function ParseRendering(s: string): Option<Pos> {
    if |s| == 0 || s[0] != '(' then None
    else
      match SplitAt(s[1..], ',')
      case None => None
      case Some((xs, rest)) =>
        if |rest| == 0 || rest[0] != ' ' then None
        else
          match SplitAt(rest[1..], ')')
          case None => None
          case Some((ys, rest2)) =>
            if |rest2| == 0 || rest2[0] != ' ' then None
            else
              match (ParseInt(xs), ParseInt(ys), ParseHeading(rest2[1..]))
              case (Some(x), Some(y), Some(h)) => Some(Pos(x, y, h))
              case _ => None
  }

  /** An integer's rendering holds neither of the separators the reader looks for. */
  lemma NoSeparators(i: int)
    ensures ',' !in IntToString(i) && ')' !in IntToString(i)
  {
  }

  /** The reader takes a text of the rendered shape apart into its three fields. */
  lemma ParseFields(xs: string, ys: string, name: string)
    requires ',' !in xs && ')' !in ys
    ensures ParseRendering("(" + xs + ", " + ys + ") " + name)
         == match (ParseInt(xs), ParseInt(ys), ParseHeading(name))
            case (Some(x), Some(y), Some(h)) => Some(Pos(x, y, h))
            case _ => None
  {
    var s := "(" + xs + ", " + ys + ") " + name;
    var rest := " " + ys + ") " + name;
    assert s[1..] == xs + [','] + rest;
    SplitAtFirst(xs, rest, ',');
    var rest2 := " " + name;
    assert rest[1..] == ys + [')'] + rest2;
    SplitAtFirst(ys, rest2, ')');
    assert rest2[1..] == name;
  }

  /** The text of a well-formed position reads back as that position; distinct positions
      therefore render differently. */
  lemma RenderRoundTrip(p: Pos)
    ensures ParseRendering(RenderPos(p)) == Some(p)
  {
    NoSeparators(p.x);
    NoSeparators(p.y);
    ParseFields(IntToString(p.x), IntToString(p.y), Name(p.h));
    IntRoundTrip(p.x);
    IntRoundTrip(p.y);
    NameRoundTrip(p.h);
  }
}

=== FILE: rover_class.dfy ===
/** The rover object: one mutable state field, replaced as commands are executed. */
module RoverClass {
  import opened Options
  import opened Positioner
  import Rovers
  import Rendering
  import Decimal

  class Rover {
    var state: RawPos

    /** A fresh rover stands at (0, 0) facing NORTH. */
    constructor()
      ensures state == Rovers.DefaultState
    {
      state := Rovers.DefaultState;
    }

    /** `init` stores the three values as given; the source's defaults are 0, 0 and "NORTH". */
    method Init(x: int := 0, y: int := 0, direction: string := "NORTH")
      modifies this
      ensures state == Rovers.InitState(x, y, direction)
    {
      state := Rovers.InitState(x, y, direction);
    }

    /** `setState` replaces the whole state without checking it. */
    method SetState(s: RawPos)
      modifies this
      ensures state == s
    {
      state := s;
    }

    /** `getState` hands back the stored state. */
    function GetState(): (r: RawPos)
      reads this
      ensures r == state
    {
      state
    }

    /** `execute` runs the command string against the stored state. */
    method Execute(commands: string)
      modifies this
      ensures state == Rovers.Execute(old(state), commands)
    {
      state := Rovers.ExecuteLoop(state, commands);
    }

    /** `toString`; `None` where the source throws on an absent state. */
    function ToString(): (r: Option<string>)
      reads this
      ensures r.None? <==> state.Missing?
      ensures Valid(state) ==> r == Some(Rendering.RenderPos(FromRaw(state)))
      ensures state.Record? && state.x.Some? && state.y.Some? && state.direction.Some? ==>
                r == Some("(" + Decimal.IntToString(state.x.value) + ", "
                          + Decimal.IntToString(state.y.value) + ") " + state.direction.value)
    {
      Rendering.Render(state)
    }
  }
}

=== FILE: rovers.dfy ===
/**
 The rover's command execution: characters are applied left to right, and execution
 halts at the first character outside the allow-list.
 */
module Rovers {
  import opened Options
  import opened Directions
  import opened Positioner

  /** The state of a rover that has not been initialised: (0, 0) facing NORTH. */
  const DefaultState: RawPos := ToRaw(Pos(0, 0, North))

  /** `init(x, y, direction)`: the three arguments become the state as given, unchecked. */
  function InitState(x: int, y: int, direction: string): (r: RawPos)
    ensures r.Record? && r.x == Some(x) && r.y == Some(y) && r.direction == Some(direction)
    ensures Valid(r) <==> ParseHeading(direction).Some?
    ensures forall h :: ParseHeading(direction) == Some(h) ==> FromRaw(r) == Pos(x, y, h)
  {
    Record(Some(x), Some(y), Some(direction))
  }

  /** The longest prefix of a command string made of allowed characters only. */
  function AllowedPrefix(s: string): (r: string)
    ensures r <= s
    ensures forall i :: 0 <= i < |r| ==> IsAllowed(r[i])
    ensures |r| < |s| ==> !IsAllowed(s[|r|])
  {
    if |s| == 0 || !IsAllowed(s[0]) then []
    else
      var rest := AllowedPrefix(s[1..]);
      assert forall i :: 1 <= i <= |rest| ==> ([s[0]] + rest)[i] == rest[i - 1];
      [s[0]] + rest
  }

  /** The transition function applied to every character in turn, with no stopping rule. */
  function MoveAll(p: RawPos, cmds: string): RawPos
    decreases |cmds|
  {
    if |cmds| == 0 then p else MoveAll(Move(p, [cmds[0]]), cmds[1..])
  }

  /**
   `execute` as a function of the state before and the command string: each allowed
   character replaces the state by its transition, and the first disallowed character
   ends execution. A malformed state never changes, and a valid one stays valid.
   */
  function Execute(state: RawPos, s: string): (r: RawPos)
    ensures !Valid(state) ==> r == state
    ensures Valid(state) ==> Valid(r)
    decreases |s|
  {
    if |s| == 0 || !IsAllowed(s[0]) then state
    else Execute(Move(state, [s[0]]), s[1..])
  }

  /** The loop of `execute`: walk the string, stop at the first disallowed character. */
  method ExecuteLoop(start: RawPos, s: string) returns (r: RawPos)
    ensures r == Execute(start, s)
  {
    r := start;
    var i := 0;
    while i < |s|
      invariant 0 <= i <= |s|
      invariant Execute(r, s[i..]) == Execute(start, s)
      decreases |s| - i
    {
      var command := s[i];
      if !IsAllowed(command) {
        break;
      }
      assert s[i..][1..] == s[i + 1..];
      r := Move(r, [command]);
      i := i + 1;
    }
  }

  /** Executing a string is folding the transition function over its longest allowed prefix. */
  lemma {:induction false} ExecuteIsPrefixFold(p: RawPos, s: string)
    ensures Execute(p, s) == MoveAll(p, AllowedPrefix(s))
    decreases |s|
  {
    if |s| > 0 && IsAllowed(s[0]) {
      ExecuteIsPrefixFold(Move(p, [s[0]]), s[1..]);
      var pre := AllowedPrefix(s);
      assert pre[0] == s[0];
      assert pre[1..] == AllowedPrefix(s[1..]);
    }
  }

  /** An empty command string, or one whose first character is not allowed, changes nothing. */
  lemma ExecuteNoOp(p: RawPos, s: string)
    requires |s| == 0 || !IsAllowed(s[0])
    ensures Execute(p, s) == p
  {
  }

  /** Characters after the first disallowed one are never applied. */
  lemma {:induction false} ExecuteStopsAtBad(p: RawPos, good: string, bad: char, rest: string)
    requires forall i :: 0 <= i < |good| ==> IsAllowed(good[i])
    requires !IsAllowed(bad)
    ensures Execute(p, good + [bad] + rest) == Execute(p, good)
    decreases |good|
  {
    var s := good + [bad] + rest;
    if |good| == 0 {
      assert s[0] == bad;
    } else {
      assert s[0] == good[0];
      assert s[1..] == good[1..] + [bad] + rest;
      ExecuteStopsAtBad(Move(p, [good[0]]), good[1..], bad, rest);
    }
  }

  /** When the first string is all allowed characters, executing it and then the second
      is the same as executing their concatenation. */
  lemma {:induction false} ExecuteConcat(p: RawPos, s1: string, s2: string)
    requires forall i :: 0 <= i < |s1| ==> IsAllowed(s1[i])
    ensures Execute(Execute(p, s1), s2) == Execute(p, s1 + s2)
    decreases |s1|
  {
    if |s1| > 0 {
      var s := s1 + s2;
      var q := Move(p, [s1[0]]);
      assert IsAllowed(s1[0]);
      assert Execute(p, s1) == Execute(q, s1[1..]);
      assert s[0] == s1[0] && s[1..] == s1[1..] + s2;
      assert Execute(p, s) == Execute(q, s1[1..] + s2);
      ExecuteConcat(q, s1[1..], s2);
    } else {
      assert s1 + s2 == s2;
    }
  }
}

=== FILE: scenarios.dfy ===
/**
 The command runs of the rover's tests. Each run is proved from every starting cell,
 since a run only ever adds to the coordinates; the tests start at (0, 0).
 */
module Scenarios {
  import opened Options
  import opened Directions
  import opened Positioner
  import opened Rovers
  import PositionerLaws
  import opened Decimal
  import opened Rendering

  /** One allowed command at the head of the string moves the rover by its action. */
  lemma ExecuteStep(p: Pos, c: Command, s: string, q: Pos)
    requires |s| > 0 && s[0] == Letter(c) && Apply(p, c) == q
    ensures Execute(ToRaw(p), s) == Execute(ToRaw(q), s[1..])
  {
    PositionerLaws.MoveLiftsApply(p, c);
  }

  /** "F" facing WEST moves one cell west; "X" does nothing. */
  lemma SingleCommands(x: int, y: int)
    ensures Execute(ToRaw(Pos(x, y, West)), "F") == ToRaw(Pos(x - 1, y, West))
    ensures Execute(ToRaw(Pos(x, y, West)), "X") == ToRaw(Pos(x, y, West))
  {
    ExecuteStep(Pos(x, y, West), Forward, "F", Pos(x - 1, y, West));
  }

  /** "FLFFFRFLB" from WEST ends two cells west and two south, facing SOUTH. */
  lemma CommandList(x: int, y: int)
    ensures Execute(ToRaw(Pos(x, y, West)), "FLFFFRFLB") == ToRaw(Pos(x - 2, y - 2, South))
  {
    calc {
      Execute(ToRaw(Pos(x, y, West)), "FLFFFRFLB");
      { ExecuteStep(Pos(x, y, West), Forward, "FLFFFRFLB", Pos(x - 1, y, West)); }
      Execute(ToRaw(Pos(x - 1, y, West)), "LFFFRFLB");
      { ExecuteStep(Pos(x - 1, y, West), Left, "LFFFRFLB", Pos(x - 1, y, South)); }
      Execute(ToRaw(Pos(x - 1, y, South)), "FFFRFLB");
      { ExecuteStep(Pos(x - 1, y, South), Forward, "FFFRFLB", Pos(x - 1, y - 1, South)); }
      Execute(ToRaw(Pos(x - 1, y - 1, South)), "FFRFLB");
      { ExecuteStep(Pos(x - 1, y - 1, South), Forward, "FFRFLB", Pos(x - 1, y - 2, South)); }
      Execute(ToRaw(Pos(x - 1, y - 2, South)), "FRFLB");
      { ExecuteStep(Pos(x - 1, y - 2, South), Forward, "FRFLB", Pos(x - 1, y - 3, South)); }
      Execute(ToRaw(Pos(x - 1, y - 3, South)), "RFLB");
      { CommandListEnd(x, y); }
      ToRaw(Pos(x - 2, y - 2, South));
    }
  }

  /** The end of that run: "RFLB" facing SOUTH. */
  lemma CommandListEnd(x: int, y: int)
    ensures Execute(ToRaw(Pos(x - 1, y - 3, South)), "RFLB") == ToRaw(Pos(x - 2, y - 2, South))
  {
    calc {
      Execute(ToRaw(Pos(x - 1, y - 3, South)), "RFLB");
      { ExecuteStep(Pos(x - 1, y - 3, South), Right, "RFLB", Pos(x - 1, y - 3, West)); }
      Execute(ToRaw(Pos(x - 1, y - 3, West)), "FLB");
      { ExecuteStep(Pos(x - 1, y - 3, West), Forward, "FLB", Pos(x - 2, y - 3, West)); }
      Execute(ToRaw(Pos(x - 2, y - 3, West)), "LB");
      { ExecuteStep(Pos(x - 2, y - 3, West), Left, "LB", Pos(x - 2, y - 3, South)); }
      Execute(ToRaw(Pos(x - 2, y - 3, South)), "B");
      { ExecuteStep(Pos(x - 2, y - 3, South), Backwards, "B", Pos(x - 2, y - 2, South)); }
      Execute(ToRaw(Pos(x - 2, y - 2, South)), "");
    }
  }

  /** "FFXFF" from EAST stops at the X: only the first two steps happen. */
  lemma StopsAtFirstBadCommand(x: int, y: int)
    ensures Execute(ToRaw(Pos(x, y, East)), "FFXFF") == ToRaw(Pos(x + 2, y, East))
  {
    calc {
      Execute(ToRaw(Pos(x, y, East)), "FFXFF");
      { ExecuteStep(Pos(x, y, East), Forward, "FFXFF", Pos(x + 1, y, East)); }
      Execute(ToRaw(Pos(x + 1, y, East)), "FXFF");
      { ExecuteStep(Pos(x + 1, y, East), Forward, "FXFF", Pos(x + 2, y, East)); }
      Execute(ToRaw(Pos(x + 2, y, East)), "XFF");
    }
  }

  /** "FFFBBBRFFBBLBBFF" from EAST comes back to the starting cell and heading. */
  lemma ReturnsToOrigin(x: int, y: int)
    ensures Execute(ToRaw(Pos(x, y, East)), "FFFBBBRFFBBLBBFF") == ToRaw(Pos(x, y, East))
  {
    calc {
      Execute(ToRaw(Pos(x, y, East)), "FFFBBBRFFBBLBBFF");
      { ExecuteStep(Pos(x, y, East), Forward, "FFFBBBRFFBBLBBFF", Pos(x + 1, y, East)); }
      Execute(ToRaw(Pos(x + 1, y, East)), "FFBBBRFFBBLBBFF");
      { ExecuteStep(Pos(x + 1, y, East), Forward, "FFBBBRFFBBLBBFF", Pos(x + 2, y, East)); }
      Execute(ToRaw(Pos(x + 2, y, East)), "FBBBRFFBBLBBFF");
      { ExecuteStep(Pos(x + 2, y, East), Forward, "FBBBRFFBBLBBFF", Pos(x + 3, y, East)); }
      Execute(ToRaw(Pos(x + 3, y, East)), "BBBRFFBBLBBFF");
      { ExecuteStep(Pos(x + 3, y, East), Backwards, "BBBRFFBBLBBFF", Pos(x + 2, y, East)); }
      Execute(ToRaw(Pos(x + 2, y, East)), "BBRFFBBLBBFF");
      { ExecuteStep(Pos(x + 2, y, East), Backwards, "BBRFFBBLBBFF", Pos(x + 1, y, East)); }
      Execute(ToRaw(Pos(x + 1, y, East)), "BRFFBBLBBFF");
      { ExecuteStep(Pos(x + 1, y, East), Backwards, "BRFFBBLBBFF", Pos(x, y, East)); }
      Execute(ToRaw(Pos(x, y, East)), "RFFBBLBBFF");
      { ReturnsAfterTurn(x, y); }
      ToRaw(Pos(x, y, East));
    }
  }

  /** The rest of that run: "RFFBBLBBFF" facing EAST, back where it began. */
  lemma ReturnsAfterTurn(x: int, y: int)
    ensures Execute(ToRaw(Pos(x, y, East)), "RFFBBLBBFF") == ToRaw(Pos(x, y, East))
  {
    calc {
      Execute(ToRaw(Pos(x, y, East)), "RFFBBLBBFF");
      { ExecuteStep(Pos(x, y, East), Right, "RFFBBLBBFF", Pos(x, y, South)); }
      Execute(ToRaw(Pos(x, y, South)), "FFBBLBBFF");
      { ExecuteStep(Pos(x, y, South), Forward, "FFBBLBBFF", Pos(x, y - 1, South)); }
      Execute(ToRaw(Pos(x, y - 1, South)), "FBBLBBFF");
      { ExecuteStep(Pos(x, y - 1, South), Forward, "FBBLBBFF", Pos(x, y - 2, South)); }
      Execute(ToRaw(Pos(x, y - 2, South)), "BBLBBFF");
      { ReturnsFacingSouth(x, y); }
      ToRaw(Pos(x, y, East));
    }
  }

  /** The middle of that run: "BBLBBFF" facing SOUTH two cells down, back where the turn began. */
  lemma ReturnsFacingSouth(x: int, y: int)
    ensures Execute(ToRaw(Pos(x, y - 2, South)), "BBLBBFF") == ToRaw(Pos(x, y, East))
  {
    calc {
      Execute(ToRaw(Pos(x, y - 2, South)), "BBLBBFF");
      { ExecuteStep(Pos(x, y - 2, South), Backwards, "BBLBBFF", Pos(x, y - 1, South)); }
      Execute(ToRaw(Pos(x, y - 1, South)), "BLBBFF");
      { ExecuteStep(Pos(x, y - 1, South), Backwards, "BLBBFF", Pos(x, y, South)); }
      Execute(ToRaw(Pos(x, y, South)), "LBBFF");
      { ExecuteStep(Pos(x, y, South), Left, "LBBFF", Pos(x, y, East)); }
      Execute(ToRaw(Pos(x, y, East)), "BBFF");
      { ReturnsAlongEast(x, y); }
      ToRaw(Pos(x, y, East));
    }
  }

  /** The last part of that run: "BBFF" facing EAST, back where it began. */
  lemma ReturnsAlongEast(x: int, y: int)
    ensures Execute(ToRaw(Pos(x, y, East)), "BBFF") == ToRaw(Pos(x, y, East))
  {
    calc {
      Execute(ToRaw(Pos(x, y, East)), "BBFF");
      { ExecuteStep(Pos(x, y, East), Backwards, "BBFF", Pos(x - 1, y, East)); }
      Execute(ToRaw(Pos(x - 1, y, East)), "BFF");
      { ExecuteStep(Pos(x - 1, y, East), Backwards, "BFF", Pos(x - 2, y, East)); }
      Execute(ToRaw(Pos(x - 2, y, East)), "FF");
      { ExecuteStep(Pos(x - 2, y, East), Forward, "FF", Pos(x - 1, y, East)); }
      Execute(ToRaw(Pos(x - 1, y, East)), "F");
      { ExecuteStep(Pos(x - 1, y, East), Forward, "F", Pos(x, y, East)); }
      Execute(ToRaw(Pos(x, y, East)), "");
    }
  }

  /** The grid walk of the tests, first leg: "FFFRFFF" from EAST ends three cells east and three south, facing SOUTH. */
  lemma GridWalkOut(x: int, y: int)
    ensures Execute(ToRaw(Pos(x, y, East)), "FFFRFFF") == ToRaw(Pos(x + 3, y - 3, South))
  {
    calc {
      Execute(ToRaw(Pos(x, y, East)), "FFFRFFF");
      { ExecuteStep(Pos(x, y, East), Forward, "FFFRFFF", Pos(x + 1, y, East)); }
      Execute(ToRaw(Pos(x + 1, y, East)), "FFRFFF");
      { ExecuteStep(Pos(x + 1, y, East), Forward, "FFRFFF", Pos(x + 2, y, East)); }
      Execute(ToRaw(Pos(x + 2, y, East)), "FRFFF");
      { ExecuteStep(Pos(x + 2, y, East), Forward, "FRFFF", Pos(x + 3, y, East)); }
      Execute(ToRaw(Pos(x + 3, y, East)), "RFFF");
      { ExecuteStep(Pos(x + 3, y, East), Right, "RFFF", Pos(x + 3, y, South)); }
      Execute(ToRaw(Pos(x + 3, y, South)), "FFF");
      { GridWalkDown(x, y); }
      ToRaw(Pos(x + 3, y - 3, South));
    }
  }

  /** The end of the first leg: "FFF" facing SOUTH from three cells east. */
  lemma GridWalkDown(x: int, y: int)
    ensures Execute(ToRaw(Pos(x + 3, y, South)), "FFF") == ToRaw(Pos(x + 3, y - 3, South))
  {
    calc {
      Execute(ToRaw(Pos(x + 3, y, South)), "FFF");
      { ExecuteStep(Pos(x + 3, y, South), Forward, "FFF", Pos(x + 3, y - 1, South)); }
      Execute(ToRaw(Pos(x + 3, y - 1, South)), "FF");
      { ExecuteStep(Pos(x + 3, y - 1, South), Forward, "FF", Pos(x + 3, y - 2, South)); }
      Execute(ToRaw(Pos(x + 3, y - 2, South)), "F");
      { ExecuteStep(Pos(x + 3, y - 2, South), Forward, "F", Pos(x + 3, y - 3, South)); }
      Execute(ToRaw(Pos(x + 3, y - 3, South)), "");
    }
  }

  /** Second leg: "LLFFFLFFF" from there brings the rover back to the start, facing WEST. */
  lemma GridWalkBack(x: int, y: int)
    ensures Execute(ToRaw(Pos(x + 3, y - 3, South)), "LLFFFLFFF") == ToRaw(Pos(x, y, West))
  {
    calc {
      Execute(ToRaw(Pos(x + 3, y - 3, South)), "LLFFFLFFF");
      { ExecuteStep(Pos(x + 3, y - 3, South), Left, "LLFFFLFFF", Pos(x + 3, y - 3, East)); }
      Execute(ToRaw(Pos(x + 3, y - 3, East)), "LFFFLFFF");
      { ExecuteStep(Pos(x + 3, y - 3, East), Left, "LFFFLFFF", Pos(x + 3, y - 3, North)); }
      Execute(ToRaw(Pos(x + 3, y - 3, North)), "FFFLFFF");
      { ExecuteStep(Pos(x + 3, y - 3, North), Forward, "FFFLFFF", Pos(x + 3, y - 2, North)); }
      Execute(ToRaw(Pos(x + 3, y - 2, North)), "FFLFFF");
      { ExecuteStep(Pos(x + 3, y - 2, North), Forward, "FFLFFF", Pos(x + 3, y - 1, North)); }
      Execute(ToRaw(Pos(x + 3, y - 1, North)), "FLFFF");
      { ExecuteStep(Pos(x + 3, y - 1, North), Forward, "FLFFF", Pos(x + 3, y, North)); }
      Execute(ToRaw(Pos(x + 3, y, North)), "LFFF");
      { GridWalkHome(x, y); }
      ToRaw(Pos(x, y, West));
    }
  }

  /** The end of the second leg: "LFFF" facing NORTH, three cells east of the start. */
  lemma GridWalkHome(x: int, y: int)
    ensures Execute(ToRaw(Pos(x + 3, y, North)), "LFFF") == ToRaw(Pos(x, y, West))
  {
    calc {
      Execute(ToRaw(Pos(x + 3, y, North)), "LFFF");
      { ExecuteStep(Pos(x + 3, y, North), Left, "LFFF", Pos(x + 3, y, West)); }
      Execute(ToRaw(Pos(x + 3, y, West)), "FFF");
      { ExecuteStep(Pos(x + 3, y, West), Forward, "FFF", Pos(x + 2, y, West)); }
      Execute(ToRaw(Pos(x + 2, y, West)), "FF");
      { ExecuteStep(Pos(x + 2, y, West), Forward, "FF", Pos(x + 1, y, West)); }
      Execute(ToRaw(Pos(x + 1, y, West)), "F");
      { ExecuteStep(Pos(x + 1, y, West), Forward, "F", Pos(x, y, West)); }
      Execute(ToRaw(Pos(x, y, West)), "");
    }
  }

  /** The texts the tests expect after the runs that end west of the start. */
  lemma TextsWithNegatives()
    ensures Render(ToRaw(Pos(-2, -2, South))) == Some("(-2, -2) SOUTH")
    ensures Render(ToRaw(Pos(-1, 0, West))) == Some("(-1, 0) WEST")
  {
    assert IntToString(0) == "0" by { assert DigitChar(0) == '0'; }
    assert IntToString(-1) == "-1" by { assert DigitChar(1) == '1'; }
    assert IntToString(-2) == "-2" by { assert DigitChar(2) == '2'; }
    assert "(" + "-2" + ", " + "-2" + ") " + "SOUTH" == "(-2, -2) SOUTH";
    assert "(" + "-1" + ", " + "0" + ") " + "WEST" == "(-1, 0) WEST";
  }

  /** The text the tests expect at the far corner of the grid walk. */
  lemma TextAtGridCorner()
    ensures Render(ToRaw(Pos(3, -3, South))) == Some("(3, -3) SOUTH")
  {
    assert IntToString(3) == "3" by { assert DigitChar(3) == '3'; }
    assert IntToString(-3) == "-3" by { assert DigitChar(3) == '3'; }
    assert "(" + "3" + ", " + "-3" + ") " + "SOUTH" == "(3, -3) SOUTH";
  }

  /** The texts the tests expect for the initial state and the runs that stay non-negative. */
  lemma TextsWithoutNegatives()
    ensures Render(InitState(6, 4, "NORTH")) == Some("(6, 4) NORTH")
    ensures Render(ToRaw(Pos(0, 0, West))) == Some("(0, 0) WEST")
    ensures Render(ToRaw(Pos(2, 0, East))) == Some("(2, 0) EAST")
    ensures Render(ToRaw(Pos(0, 0, East))) == Some("(0, 0) EAST")
  {
    assert IntToString(0) == "0" by { assert DigitChar(0) == '0'; }
    assert IntToString(2) == "2" by { assert DigitChar(2) == '2'; }
    assert IntToString(4) == "4" by { assert DigitChar(4) == '4'; }
    assert IntToString(6) == "6" by { assert DigitChar(6) == '6'; }
    assert "(" + "6" + ", " + "4" + ") " + "NORTH" == "(6, 4) NORTH";
    assert "(" + "0" + ", " + "0" + ") " + "WEST" == "(0, 0) WEST";
    assert "(" + "2" + ", " + "0" + ") " + "EAST" == "(2, 0) EAST";
    assert "(" + "0" + ", " + "0" + ") " + "EAST" == "(0, 0) EAST";
  }

  /** A direction that is not a heading name is stored and rendered as given. */
  lemma TextOfUncheckedDirection()
    ensures Render(InitState(6, 4, "north")) == Some("(6, 4) north")
  {
    assert IntToString(4) == "4" by { assert DigitChar(4) == '4'; }
    assert IntToString(6) == "6" by { assert DigitChar(6) == '6'; }
    assert "(" + "6" + ", " + "4" + ") " + "north" == "(6, 4) north";
  }

  /** A fresh rover and `init(0, 0, direction)` both give the valid position they name. */
  lemma InitialStates(x: int, y: int, h: Heading)
    ensures DefaultState == InitState(0, 0, "NORTH")
    ensures InitState(x, y, Name(h)) == ToRaw(Pos(x, y, h))
  {
  }
}
